=== FILE: README.md ===
# filestore-migrator: path and record policy, per-record outcomes

This Dafny project models the core of the Rocket.Chat file-store migrator.
The migrator moves uploads and avatars from one storage backend to another.
It then rewrites each file record in the catalog so the record points at the object's new location.

The model covers the following parts of `methods.go`:

- **Run state and configuration.** `SetStoreName` accepts a closed set of store names and re-stages the bound stores. `SetFileOffset` rejects the zero time. Each operating mode needs certain provider bindings: `MigrateStore` needs both, `DownloadAll` a source and `UploadAll` a destination (module `Migrator`).
- **Candidate selection.** The pure part of `getFiles`: the store name selects the collection, and the filter is built from the source kind, the store name and the optional `uploadedAt` lower bound. The catalog's `Find` is modelled as filtering a collection by that query (`Migrator.Filter`).
- **Path and record policy.** `getObjectPath`, `fixFileForUpload`, and the `"undefined"` defaulting of `Rid`/`UserID` (module `Policy`).
- **Per-record outcomes and runs.** The `MigrateStore` and `DownloadAll` worker bodies, the sequential `UploadAll` loop, and how the outcomes make up the result of a run (module `Pipeline`).
- **DownloadAll's completion signals.** How many completion signals the workers send and how many the launching loop receives, as written and in the intended pool (module `Signals`).

Supporting modules:

- `Wrappers`: `Option` and `Result`.
- `Paths`: ASCII lower-casing, `/`-joined paths, and their inverse `Split`.
- `Rocketchat`: the file record. The Go declaration of `rocketchat.File` is not part of this model. Its fields are the ones `methods.go` reads and writes.

Provider and catalog calls are inputs to the model:

- The instance id (`uniqueID`) is a string parameter.
- The catalog is a map from collection name to records.
- Download, upload and update results are per-record answers, keyed by record id.
- The `os.Stat` check of a staged file is membership in a set of existing paths.

Go's setters mutate the `Migrate` value. Here they are pure functions that return the next state together with the error, if any. This makes "unchanged on error" something a contract can state.

## Where the model departs from the code

- **Zero candidates.** `getFiles` has a "No files found" branch for `mongo.ErrNoDocuments` (methods.go:118-120). `Find` does not return that error for an empty result, so an empty collection means zero work.
- **Fatal errors.** A worker's fatal error reaches a listener goroutine that panics (methods.go:157-163, 338-344). The model reports the fault as `Err(Failed(fault))`.
- **Run result.** `MigrateStore` and `DownloadAll` return only `nil` on success. The model returns the migrations made and the staged paths.
- **Missing source in `UploadAll`.** `getFiles` reads the source store's kind even when `UploadAll` runs without a source (see "## Findings"). The corrected `Migrator.CandidateQuery` reports `NoSourceStore` instead, and `UploadAll` uses it.
- **DownloadAll's pool.** As written, `DownloadAll` cannot return once it has any candidate (see "## Findings"). `Pipeline.DownloadAll` models the intended pool, which returns once every worker has finished.

## Model

| member | source | states |
|---|---|---|
| Migrator.SetStoreName | methods.go:47-62 | Succeeds exactly for "Uploads" and "Avatars". Any other name returns the invalid-name error and leaves the whole state unchanged. On success the store name is set. Every bound store keeps its binding and kind, and its temp dir becomes `tempFileLocation + "/" + lower(name)`. An unbound store stays unbound, and no other field changes. |
| Migrator.SettersKeepValidState | methods.go:47-52 | The store name held by the state stays in {"", "Uploads", "Avatars"} across both setters. |
| Migrator.SetFileOffset | methods.go:302-310 | Fails exactly for the zero time, returning the invalid-date error with the state unchanged. Otherwise only the offset changes, and it becomes the given time. |
| Migrator.CheckMode | methods.go:134-136 | The check passes iff the mode's stores are bound. MigrateStore needs both stores. DownloadAll needs a source (lines 314-316). UploadAll needs a destination (lines 397-399). A failure names the mode. |
| Migrator.TransferNeedsBothRoles | methods.go:313-316 | The MigrateStore check (line 134) passes iff both the DownloadAll check (line 314) and the UploadAll check (line 397) pass. |
| Migrator.CollectionFor | methods.go:72-81 | A collection exists exactly for the two store names. It is `rocketchat_` followed by the lower-cased name. |
| Migrator.CandidateQueryAsWritten | methods.go:65-115 | getFiles as written. An empty name returns the no-store-name error and any other unknown name the unknown-name error, both before the source is read. A valid name reads the source's kind, so it is defined only when a source is bound. It succeeds exactly for the two store names. |
| Migrator.CandidateQuery | methods.go:65-115 | An empty store name is an error. Success requires a valid store name and a bound source. Wherever getFiles as written is defined, the two agree. The no-source error is returned exactly for a valid name with no source, which is where getFiles panics. The collection is the store's collection. A record matches iff its `store` equals `sourceKind + ":" + storeName` and, when the offset is non-zero, its `uploadedAt` is at or after the offset. |
| Migrator.UploadGuardAdmitsMissingSource | methods.go:397-401 | A valid state with a destination and no source passes UploadAll's check. It violates the precondition of `Migrator.CandidateQueryAsWritten` (a valid name with no source), so getFiles as written cannot be evaluated there. The corrected query returns the no-source error. |
| Migrator.StoreNameSelectsCollection | methods.go:74-80 | SetStoreName and getFiles accept the same names. After a successful SetStoreName, the query uses `rocketchat_` + lower(name). |
| Migrator.OffsetBoundsCandidates | methods.go:113-115 | After a successful SetFileOffset(t), every record the query matches was uploaded at or after t. |
| Migrator.Filter | methods.go:117-129 | The candidates are exactly the records of the collection that match the query. There are never more of them than records. |
| Policy.ObjectPath | methods.go:249-264 | A FileSystem destination gets just the record id, whatever the store name. An unrecognised store name gets the empty path. |
| Policy.UploadsPathFormat | methods.go:253-254 | An Uploads path is `uniqueID + "/uploads/" + Rid + "/" + UserID + "/" + ID`. |
| Policy.AvatarsPathFormat | methods.go:255-256 | An Avatars path is `uniqueID + "/avatars/" + UserID`. |
| Policy.UploadsPathSegments | methods.go:254 | For a non-FileSystem destination where no component contains `/`, splitting an Uploads path at `/` gives back the namespace, "uploads", the room id, the user id and the record id. |
| Policy.AvatarsPathSegments | methods.go:256 | For a non-FileSystem destination where no component contains `/`, splitting an Avatars path gives back the namespace, "avatars" and the user id. |
| Policy.UploadsPathsDistinct | methods.go:254 | For a non-FileSystem destination and components without `/` (namespace, room, user, id), uploads that differ in room, user or id never share an object path. Without the `/` condition this fails: room "a/b" with user "c" and room "a" with user "b/c" give the same path. |
| Policy.AvatarPathPerUser | methods.go:256 | For a non-FileSystem destination where the namespace and user ids contain no `/`, two avatars share an object path iff they belong to the same user. |
| Policy.UfsPathSegments | methods.go:292 | When the kind, store name, id and file name contain no `/`, the served URL `/ufs/kind:store/id/name` splits back into "", "ufs", the descriptor, the id and the name. The file name is user data, so a name with `/` breaks this. |
| Policy.FixFileForUpload | methods.go:267-298 | AmazonS3: sets the S3 path, empties GoogleStorage and returns "GoogleStorage". GoogleCloudStorage: the mirror image, returning "AmazonS3". Any other kind returns "" and leaves both sub-documents alone. In every case URL and Path equal the `/ufs/` reference and Store equals `kind:storeName`. ID, Name, Type, UserID, Rid, Complete and uploadedAt are unchanged. |
| Policy.FixLocatesInDestination | methods.go:270-287 | For an object-store destination the rewritten record has at most one sub-document populated. The field named for `$unset` is empty. For a non-empty path, the record is located exactly in the destination's sub-document. |
| Policy.FixKeepsLocationOutsideObjectStores | methods.go:288-290 | For a destination other than the two object stores, nothing is unset. The record keeps the backend location it had, while its descriptor names the new kind. For example, an S3 record moved to FileSystem keeps its S3 path. |
| Policy.FixIdempotent | methods.go:267-298 | Rewriting an already rewritten record for the same destination changes nothing. |
| Policy.FixedNotReselected | methods.go:296 | A record rewritten for a destination of another kind no longer matches a query on the source's `kind:storeName` descriptor. |
| Policy.Defaulted | methods.go:196-202 | After defaulting, UserID is non-empty, and Rid is non-empty for Uploads. An empty UserID becomes "undefined". An empty Rid becomes "undefined" only for Uploads. Non-empty values and all other fields are kept. |
| Pipeline.DownloadStage | methods.go:178-194 | An incomplete record is skipped before any download. A download error is a skip iff it is not-found or skip-errors is set. Any other download error is fatal with that error. A done stage carries the downloaded path. |
| Pipeline.PushAndRecord | methods.go:204-229 | Never a skip. It is fatal iff the upload or the update fails, with the upload's fault first. Done carries the upload call (object path, staged file, content type) and the catalog update for the rewritten record. |
| Pipeline.MigrateRecord | methods.go:178-229 | Incomplete means skipped. A skip happens iff the record is incomplete or its download error is tolerated. It is fatal iff the record is complete, some call failed, and the failure is not a tolerated download error. The fault is the first failing call in download, upload, update order. A migrated record is uploaded from the downloaded file, with its own content type, to the object path of the defaulted record. Its catalog update is `fixFileForUpload` of the defaulted record at that same path, and it targets the record's own id. |
| Pipeline.NotFoundNeverFatal | methods.go:185-189 | A not-found download skips the record whatever the skip-errors flag says. |
| Pipeline.SkipErrorsOnlyRescuesDownloads | methods.go:185-193 | Turning on skip-errors changes an outcome only by turning a fatal download error into a skip. Upload and update errors stay fatal. |
| Pipeline.MigratedRecordShape | methods.go:196-221 | A migrated record keeps its id, name and completion. Its placeholders are filled in. It points at `kind:storeName` and at the `/ufs/` reference. For an object-store destination it has exclusive sub-documents, and the `$unset` field is one that is empty. |
| Pipeline.MigratedNotReselected | methods.go:292-296 | When source and destination kinds differ, a migrated record no longer matches the run's candidate query. |
| Pipeline.MigratedUploadsPath | methods.go:196-204 | For a non-FileSystem destination where the namespace, room, user and record ids contain no `/`, a migrated upload's object path has five segments: namespace, "uploads", non-empty room, non-empty user and record id. |
| Pipeline.AvatarWithoutUser | methods.go:200-204 | An avatar whose user id is empty is uploaded to `{uniqueID}/avatars/undefined`. |
| Pipeline.TallyCoversAll | methods.go:178-235 | When no record is fatal, every record is either migrated or skipped. |
| Pipeline.Collect | methods.go:154-163 | A run succeeds iff no record is fatal, and then yields the done values. Otherwise it fails with the fault of a fatal record that no earlier fatal record precedes. |
| Pipeline.MigrateStore | methods.go:133-246 | Missing stores fail the mode check. Success implies both stores are bound and the store name is valid. A failing getFiles returns its own error. Once the checks pass, the run succeeds iff no candidate's worker outcome is fatal. A success yields the migrations of the done candidates, in order. A failure reports the fault of the first fatal candidate. This holds for the schedule in which each worker finishes before the next is launched. |
| Pipeline.MigrateStoreMigratesEveryDownloaded | methods.go:178-235 | A successful run migrates every complete candidate whose download succeeded. Its upload and catalog update are among the run's migrations. |
| Pipeline.MigrateStoreTouchesOnlyCompleteCandidates | methods.go:178-229 | Every catalog update of a successful run targets a complete record of the store's collection. That record matched the query and was downloaded. |
| Pipeline.ThreeRecordRun | methods.go:178-235 | With three complete records, where the first is not found at the source and the other two succeed, the run succeeds with two migrations and one skip. |
| Pipeline.DownloadAll | methods.go:313-393 | A missing source fails the mode check. A failing getFiles returns its own error. Success implies a source and a valid store name. Once the checks pass, the run succeeds iff no candidate's download is fatal. A success yields the staged paths of the done candidates, in order. A failure reports the first fatal download error. |
| Pipeline.DownloadAllStagesEveryDownload | methods.go:364-382 | A successful DownloadAll stages the download of every complete candidate whose download succeeded. |
| Pipeline.DownloadAllStagesOnlyCompleteCandidates | methods.go:364-379 | Every file a successful DownloadAll stages is the download of a complete candidate. |
| Pipeline.UploadRecord | methods.go:413-448 | A missing staged file is skipped first, then an incomplete record. The outcome is fatal iff the record is staged and complete and its upload or update fails, with the upload's fault first. A done record uploads from `root/ID`, with the record's content type, to the path of the record as stored, with no defaulting. Its catalog update is the `$set`/`$unset` of `fixFileForUpload` applied to that record, and it targets the record's own id. |
| Pipeline.UploadPlan | methods.go:396-413 | UploadAll fails the mode check without a destination. With a destination, getFiles' errors are returned as they are, using the corrected query: no store name, an unknown name, or no source where the code panics. Otherwise there is one outcome per candidate, in order. Each is that candidate's `UploadRecord` with files staged under `filesRoot + "/" + lower(storeName)`. |
| Pipeline.UploadLoop | methods.go:410-453 | The loop's applied updates are exactly the done values of the records before the first fatal outcome. It reports that outcome's fault, or no error when there is none. |
| Pipeline.UploadAll | methods.go:396-458 | The run is stated through UploadPlan, so it uses the corrected query. Errors before the loop apply nothing. Otherwise the first upload or update error stops the run at once. Only records before it are updated, and the error is reported. |
| Pipeline.UploadAllKeepsEmptyIds | methods.go:427 | UploadAll does not default ids. An upload with empty Rid and UserID goes to `{uniqueID}/uploads///{ID}`. |
| Pipeline.MigrateStoreFillsEmptyIds | methods.go:196-204 | MigrateStore defaults the ids first. The same record goes to `{uniqueID}/uploads/undefined/undefined/{ID}`. |
| Signals.SignalsSent | methods.go:364-382 | Every worker that does not fail sends exactly one completion signal. All workers signal iff none fails. |
| Signals.AsWrittenReturnsOnlyWhenEmpty | methods.go:347-388 | As written, DownloadAll returns iff there are no candidates, whatever MAX_CONCURRENCY is. Its loop receives at most one signal (line 350), but every non-failing worker sends one and cannot return until the signal is received, so `wg.Wait()` never finishes. A failing worker makes the listener panic. |
| Signals.OneDownloadBlocksAsWritten | methods.go:347-388 | On a catalog holding one complete, matching record that downloads, `Pipeline.DownloadAll` returns its path. At the default width of one, the code as written never returns on that input. |
| Signals.PoolReceives | methods.go:347-351 | The intended pool, which waits for one signal before each launch when full and for every running worker after the last launch, receives exactly one signal per worker. |
| Signals.CorrectedReturnsIffNoFailure | methods.go:347-388 | With the intended pool, DownloadAll returns iff no worker fails, whatever the width. |
| Signals.DownloadAllIsCorrectedPool | methods.go:313-393 | Once the mode check and the query pass, `Pipeline.DownloadAll` succeeds iff the intended pool returns on its outcomes. |

## Left out

- Goroutine scheduling and admission control in `MigrateStore`/`DownloadAll` (methods.go:145-175, 237-242, 335-388) are not modelled, beyond the count of `DownloadAll`'s completion signals in module `Signals`. This covers the `oneDone`/`errChan` channels, the panicking listener and the `WaitGroup`. Runs are folds over the outcomes in enumeration order. In the code, `MigrateStore` waits for one completion only when `i == maxConcurrency`, and drains one signal at the end. With zero candidates that final receive never completes.
- Pipeline.MigrateStore: on a fatal outcome it reports only the fault. It does not report the updates other workers already applied. Which workers ran before the panic, and which fatal fault arrives first, depends on scheduling. The model takes the first fatal outcome in enumeration order. Its "succeeds iff no worker is fatal" holds only for the schedule in which each worker finishes before the next is launched. In the code, `MigrateStore` returns after a single receive on `oneDone` (line 240) and then sends `nil` to the listener (line 242). A worker that is still running at that point and then fails blocks forever on `errChan`. Its error is lost and the run returns `nil`. A worker that succeeds later blocks on `oneDone` in the same way.
- Pipeline.DownloadAll: it models the intended pool, not the code as written. In the code, `doneChan` is unbuffered (line 335) and received at most once (line 350). Every non-failing worker sends on it (lines 366, 373, 382), so with any candidate some worker never returns and `wg.Wait()` (line 388) blocks. `Signals.AsWrittenReturnsOnlyWhenEmpty` states this. The intended pool, a width below one taken as one, is in `Signals.PoolReceives`.
- The `MAX_CONCURRENCY` lookup and its `Atoi` parsing (methods.go:145-152, 325-333) are left out on purpose, because the environment is not an input of the model. They do change the result. An unparsable value makes `MigrateStore` and `DownloadAll` return the `Atoi` error before any record is processed, and the model has no such error. A value of 0 makes the loop wait for a completion before it launches any worker (lines 166-168, 349-350), so the run never returns. For `DownloadAll` this case is covered by `Signals.ReturnsAsWritten`; for `MigrateStore` it is not modelled.
- `SetFileDelay` and `time.Sleep`, `DebugMode`, `debugLog`, `logger` and `fmt.Printf` are timing and logging concerns. They have no effect on which records are migrated.
- MongoDB I/O is not modelled: `connectDB`, the `uniqueID` settings lookup, `Find`/`cursor.All` and `UpdateOne`. A failure to connect or to read the settings, which would end `getFiles` before the query, is also left out. The namespace, the catalog contents and each update's result are inputs.
- The bson encoding of the `$set` document is not modelled. `Update` carries the whole record and the optional `$unset` field name.
- `os.Stat` is modelled as membership of `root/ID` in a set of existing paths.
- `strings.ToLower` is modelled for ASCII only. It is applied only to the two validated store names.
- Instants are integers counting nanoseconds from Go's zero time. The catalog's millisecond storage precision is not modelled.
- `==` versus `errors.Is` for `ErrNotFound` (methods.go:186 and 371) is not modelled. The model has no wrapped errors: a fault is either `NotFound` or `Other`.
- `DownloadAll` discards the downloaded path. The model returns the staged paths as the run's value.
- store/gridfs.go is not modelled. All its methods are stubs. Its kind `"GridFS"` falls into the default branch of `fixFileForUpload`, like any kind other than the two object stores.

## Findings

| source | as written | input that shows it | evidently intended | confidence | as-written member | corrected member |
|---|---|---|---|---|---|---|
| methods.go:397-401, 109-111 | `UploadAll` checks only that a destination store is bound. It then calls `getFiles`, which calls `m.sourceStore.StoreType()` to build the log line and the query. | A `Migrate` with store name "Uploads", a destination store and no source store, calling `UploadAll`. | The missing source is reported as an error instead of a nil-interface method call that panics. | medium: it assumes `sourceStore` is an interface value, as the `!= nil` checks suggest, but its declaration is not part of this model; not executed | Migrator.CandidateQueryAsWritten, Migrator.UploadGuardAdmitsMissingSource | Migrator.CandidateQuery |
| methods.go:335-388 | `DownloadAll` receives from the unbuffered `doneChan` only when the loop index equals `maxRun`, so at most once. Every worker that does not fail sends one signal before it returns, and `wg.Wait()` waits for all workers. | One complete record that downloads, with MAX_CONCURRENCY unset: the worker blocks on `doneChan <- true`, `wg.Done` never runs, and `DownloadAll` never returns. | A bounded pool that waits for one signal before each launch once it is full, then drains the workers still running, and returns once every worker has finished. | high: the channel is created without a buffer and the only receive is guarded by `i == maxRun`; not executed | Signals.ReturnsAsWritten, Signals.AsWrittenReturnsOnlyWhenEmpty, Signals.OneDownloadBlocksAsWritten | Signals.PoolReceives, Signals.CorrectedReturnsIffNoFailure, Signals.DownloadAllIsCorrectedPool |

=== FILE: migrator.dfy ===
/**
 * The migrator's run state and its configuration steps: choosing the store
 * (SetStoreName), the resumption offset (SetFileOffset), the provider
 * bindings each operating mode needs, and the catalog query getFiles builds.
 */
module Migrator {
  import opened Wrappers
  import opened Paths
  import opened Rocketchat

  const Uploads := "Uploads"
  const Avatars := "Avatars"

  /** The closed set of store names the migrator operates on. */
  predicate IsStoreName(name: string)
  {
    name == Uploads || name == Avatars
  }

  /** A bound storage provider: its StoreType() and its staging directory. */
  datatype Store = Store(kind: string, tempDir: string)

  /** An error a provider or the catalog reports; store.ErrNotFound is NotFound. */
  datatype Fault = NotFound | Other(message: string)

  /** MigrateStore, DownloadAll and UploadAll. */
  datatype Mode = Transfer | DownloadOnly | UploadOnly

  datatype Error =
    | InvalidStoreName
    | NoStoreName
    | UnknownStoreName
    | NoSourceStore
    | InvalidDate
    | MissingStores(mode: Mode)
    | Failed(fault: Fault)

  /** The fields of the Go Migrate value the core reads and writes. */
  datatype Migrate = Migrate(
    storeName: string,
    tempFileLocation: string,
    sourceStore: Option<Store>,
    destinationStore: Option<Store>,
    fileOffset: Instant,
    skipErrors: bool)

  /** The store names a Migrate can hold: unset, or one SetStoreName accepted. */
  predicate ValidState(m: Migrate)
  {
    m.storeName == "" || IsStoreName(m.storeName)
  }

  /** A setter's effect: the next state and the error it returned, if any. */
  datatype Change = Change(state: Migrate, error: Option<Error>)

  /** The staging directory of a store: the temp location plus the lower-cased name. */
  function StagingDir(m: Migrate, name: string): string
  {
    m.tempFileLocation + "/" + Lower(name)
  }

  function Restage(s: Option<Store>, dir: string): Option<Store>
  {
    match s
    case None => None
    case Some(st) => Some(st.(tempDir := dir))
  }

  /** `after` is `before` with the same binding and kind, staged in dir. */
  predicate Restaged(before: Option<Store>, after: Option<Store>, dir: string)
  {
    match before
    case None => after.None?
    case Some(s) => after == Some(Store(s.kind, dir))
  }

  function SetStoreName(m: Migrate, name: string): (c: Change)
    ensures c.error.None? <==> IsStoreName(name)
    ensures c.error.Some? ==> c.error == Some(InvalidStoreName) && c.state == m
    ensures c.error.None? ==> c.state.storeName == name
    ensures c.error.None? ==> Restaged(m.sourceStore, c.state.sourceStore, StagingDir(m, name))
    ensures c.error.None? ==> Restaged(m.destinationStore, c.state.destinationStore, StagingDir(m, name))
    ensures c.state == m.(storeName := c.state.storeName,
                          sourceStore := c.state.sourceStore,
                          destinationStore := c.state.destinationStore)
  {
    if name != Uploads && name != Avatars then Change(m, Some(InvalidStoreName))
    else
      var dir := StagingDir(m, name);
      Change(m.(storeName := name,
                sourceStore := Restage(m.sourceStore, dir),
                destinationStore := Restage(m.destinationStore, dir)),
             None)
  }

  /** Both setters keep the store name inside the closed set. */
  lemma SettersKeepValidState(m: Migrate, name: string, offset: Instant)
    requires ValidState(m)
    ensures ValidState(SetStoreName(m, name).state)
    ensures ValidState(SetFileOffset(m, offset).state)
  {
  }

  function SetFileOffset(m: Migrate, offset: Instant): (c: Change)
    ensures c.error.Some? <==> offset == ZeroTime
    ensures c.error.Some? ==> c == Change(m, Some(InvalidDate))
    ensures c.error.None? ==> c.state.fileOffset == offset
    ensures c.state == m.(fileOffset := c.state.fileOffset)
  {
    if offset == ZeroTime then Change(m, Some(InvalidDate))
    else Change(m.(fileOffset := offset), None)
  }

  /** The provider bindings each mode checks before doing any work. */
  function CheckMode(m: Migrate, mode: Mode): (r: Option<Error>)
    ensures r.Some? ==> r == Some(MissingStores(mode))
    ensures r.None? <==>
              && (mode == DownloadOnly || m.destinationStore.Some?)
              && (mode == UploadOnly || m.sourceStore.Some?)
  {
    match mode
    case Transfer =>
      if m.sourceStore.None? || m.destinationStore.None? then Some(MissingStores(mode)) else None
    case DownloadOnly =>
      if m.sourceStore.None? then Some(MissingStores(mode)) else None
    case UploadOnly =>
      if m.destinationStore.None? then Some(MissingStores(mode)) else None
  }

  /** A transfer run passes the checks of both single-role modes. */
  lemma TransferNeedsBothRoles(m: Migrate)
    ensures CheckMode(m, Transfer).None?
        <==> CheckMode(m, DownloadOnly).None? && CheckMode(m, UploadOnly).None?
  {
  }

  /** The catalog collection holding the records of a store. */
  function CollectionFor(name: string): (r: Option<string>)
    ensures r.Some? <==> IsStoreName(name)
    ensures r.Some? ==> r.value == "rocketchat_" + Lower(name)
  {
    LowerStoreNames();
    if name == Uploads then Some("rocketchat_uploads")
    else if name == Avatars then Some("rocketchat_avatars")
    else None
  }

  /** The filter getFiles sends: a collection, a `store` value, an optional lower bound. */
  datatype Query = Query(collection: string, store: string, uploadedFrom: Option<Instant>)

  /** The catalog's answer to a filter: equality on `store`, `$gte` on `uploadedAt`. */
  predicate Matches(q: Query, f: File)
  {
    && f.store == q.store
    && (q.uploadedFrom.Some? ==> f.uploadedAt >= q.uploadedFrom.value)
  }

  /**
   * getFiles as written: the name checks come first, then it reads the source
   * store's kind, so a valid name with a nil source panics.
   */
  function CandidateQueryAsWritten(m: Migrate): (r: Result<Query, Error>)
    requires IsStoreName(m.storeName) ==> m.sourceStore.Some?
    ensures m.storeName == "" ==> r == Err(NoStoreName)
    ensures m.storeName != "" && !IsStoreName(m.storeName) ==> r == Err(UnknownStoreName)
    ensures r.Ok? <==> IsStoreName(m.storeName)
  {
    if m.storeName == "" then Err(NoStoreName)
    else match CollectionFor(m.storeName)
      case None => Err(UnknownStoreName)
      case Some(collection) =>
        var store := m.sourceStore.value.kind + ":" + m.storeName;
        Ok(Query(collection, store, if m.fileOffset == ZeroTime then None else Some(m.fileOffset)))
  }

  /** getFiles with the missing source reported as an error instead of a panic. */
  function CandidateQuery(m: Migrate): (r: Result<Query, Error>)
    ensures m.storeName == "" ==> r == Err(NoStoreName)
    ensures r.Ok? <==> IsStoreName(m.storeName) && m.sourceStore.Some?
    ensures (IsStoreName(m.storeName) ==> m.sourceStore.Some?) ==> r == CandidateQueryAsWritten(m)
    ensures r == Err(NoSourceStore) <==> IsStoreName(m.storeName) && m.sourceStore.None?
    ensures r.Ok? ==> CollectionFor(m.storeName) == Some(r.value.collection)
    ensures r.Ok? ==> forall f :: Matches(r.value, f) <==>
                        && f.store == m.sourceStore.value.kind + ":" + m.storeName
                        && (m.fileOffset != ZeroTime ==> f.uploadedAt >= m.fileOffset)
  {
    if m.storeName == "" then Err(NoStoreName)
    else if CollectionFor(m.storeName).None? then Err(UnknownStoreName)
    else if m.sourceStore.None? then Err(NoSourceStore)
    else CandidateQueryAsWritten(m)
  }

  /**
   * UploadAll's guard admits a state without a source store, and getFiles as
   * written cannot be evaluated there: this state reaches the nil dereference.
   */
  lemma UploadGuardAdmitsMissingSource()
    ensures var m := Migrate(Uploads, "/tmp", None, Some(Store("AmazonS3", "/tmp/uploads")), ZeroTime, false);
            && ValidState(m)
            && CheckMode(m, UploadOnly).None?
            && !(IsStoreName(m.storeName) ==> m.sourceStore.Some?)
            && CandidateQuery(m) == Err(NoSourceStore)
  {
  }

  /** SetStoreName and getFiles accept the same names, and agree on the collection. */
  lemma StoreNameSelectsCollection(m: Migrate, name: string)
    requires m.sourceStore.Some?
    ensures var c := SetStoreName(m, name);
            c.error.None? <==> CandidateQuery(c.state).Ok? && c.state.storeName == name
    ensures var c := SetStoreName(m, name);
            c.error.None? ==> CandidateQuery(c.state).value.collection == "rocketchat_" + Lower(name)
  {
  }

  /** After a successful SetFileOffset only records uploaded at or after it match. */
  lemma OffsetBoundsCandidates(m: Migrate, offset: Instant, f: File)
    requires SetFileOffset(m, offset).error.None?
    requires CandidateQuery(SetFileOffset(m, offset).state).Ok?
    requires Matches(CandidateQuery(SetFileOffset(m, offset).state).value, f)
    ensures f.uploadedAt >= offset
  {
  }

  /** The records of the query's collection that match it, in catalog order. */
  function Filter(q: Query, files: seq<File>): (r: seq<File>)
    ensures |r| <= |files|
    ensures forall f :: f in r <==> f in files && Matches(q, f)
  {
    if |files| == 0 then []
    else
      var rest := Filter(q, files[1..]);
      assert files == [files[0]] + files[1..];
      if Matches(q, files[0]) then [files[0]] + rest else rest
  }

  /** The candidate list Find returns from a catalog of named collections. */
  function Candidates(q: Query, db: map<string, seq<File>>): seq<File>
  {
    Filter(q, if q.collection in db then db[q.collection] else [])
  }
}

=== FILE: paths.dfy ===
/**
 * The string building the migrator relies on: ASCII lower-casing (what
 * strings.ToLower does to the two store names), '/'-joined paths (the
 * `%s/%s/...` formats of fmt.Sprintf) and their inverse, splitting at '/'
 * as strings.Split does.
 */
module Paths {

  /** An upper-case ASCII letter mapped to lower case; any other character kept. */
  function LowerChar(c: char): char
  {
    if 'A' <= c <= 'Z' then (c as int + 32) as char else c
  }

  /** strings.ToLower, restricted to ASCII. */
  function Lower(s: string): string
  {
    seq(|s|, i requires 0 <= i < |s| => LowerChar(s[i]))
  }

  lemma LowerStoreNames()
    ensures Lower("Uploads") == "uploads"
    ensures Lower("Avatars") == "avatars"
  {
  }

  /** A path segment: a string without the separator '/'. */
  predicate NoSep(s: string)
  {
    '/' !in s
  }

  predicate AllSegments(segs: seq<string>)
  {
    forall i :: 0 <= i < |segs| ==> NoSep(segs[i])
  }

  /** The segments joined with a '/' between consecutive ones. */
  function Join(segs: seq<string>): string
  {
    if |segs| == 0 then ""
    else if |segs| == 1 then segs[0]
    else segs[0] + "/" + Join(segs[1..])
  }

  /** strings.Split(s, "/"): the maximal '/'-free pieces of s, in order. */
  function Split(s: string): (r: seq<string>)
    ensures |r| >= 1
    ensures AllSegments(r)
    ensures NoSep(s) ==> r == [s]
  {
    if |s| == 0 then [""]
    else
      var rest := Split(s[1..]);
      if s[0] == '/' then [""] + rest
      else
        assert [s[0]] + s[1..] == s;
        [[s[0]] + rest[0]] + rest[1..]
  }

  lemma JoinThree(a: string, b: string, c: string)
    ensures Join([a, b, c]) == a + "/" + b + "/" + c
  {
    assert [a, b, c][1..] == [b, c];
    assert [b, c][1..] == [c];
    assert Join([b, c]) == b + "/" + c;
  }

  lemma JoinFive(a: string, b: string, c: string, d: string, e: string)
    ensures Join([a, b, c, d, e]) == a + "/" + b + "/" + c + "/" + d + "/" + e
  {
    assert [a, b, c, d, e][1..] == [b, c, d, e];
    assert [b, c, d, e][1..] == [c, d, e];
    assert [c, d, e][1..] == [d, e];
    assert [d, e][1..] == [e];
    assert Join([d, e]) == d + "/" + e;
    assert Join([c, d, e]) == c + "/" + (d + "/" + e);
    assert Join([b, c, d, e]) == b + "/" + (c + "/" + (d + "/" + e));
  }

  /** Splitting a segment followed by '/' peels that segment off. */
  lemma {:induction false} SplitAfterSegment(a: string, b: string)
    requires NoSep(a)
    ensures Split(a + "/" + b) == [a] + Split(b)
  {
    var s := a + "/" + b;
    if |a| == 0 {
      assert s == "/" + b;
      assert s[0] == '/' && s[1..] == b;
    } else {
      var t := a[1..] + "/" + b;
      assert s == [a[0]] + t;
      assert s[0] == a[0] && s[1..] == t;
      SplitAfterSegment(a[1..], b);
      var rest := Split(t);
      assert rest[0] == a[1..] && rest[1..] == Split(b);
      assert Split(s) == [[a[0]] + rest[0]] + rest[1..];
      assert [a[0]] + a[1..] == a;
    }
  }

  /** Split is the inverse of Join on non-empty lists of segments. */
  lemma {:induction false} SplitJoin(segs: seq<string>)
    requires |segs| >= 1
    requires AllSegments(segs)
    ensures Split(Join(segs)) == segs
  {
    if |segs| > 1 {
      SplitJoin(segs[1..]);
      SplitAfterSegment(segs[0], Join(segs[1..]));
      assert [segs[0]] + segs[1..] == segs;
    }
  }

  /** Two strings with a common suffix are equal when the whole strings are. */
  lemma SameSuffixSamePrefix(a: string, b: string, s: string)
    requires a + s == b + s
    ensures a == b
  {
    assert |a| == |b|;
    assert a == (a + s)[..|a|];
    assert b == (b + s)[..|b|];
  }

  /** A `kind:name` descriptor determines its kind once the name is fixed. */
  lemma DescriptorDeterminesKind(a: string, b: string, name: string)
    requires a + ":" + name == b + ":" + name
    ensures a == b
  {
    SameSuffixSamePrefix(a + ":", b + ":", name);
    SameSuffixSamePrefix(a, b, ":");
  }
}

=== FILE: pipeline.dfy ===
/**
 * What happens to each candidate record in the three operating modes, and
 * how the per-record outcomes make up a run: MigrateStore's worker body,
 * DownloadAll's worker body and UploadAll's sequential loop. Provider and
 * catalog calls are inputs giving the answer each call returns.
 */
module Pipeline {
  import opened Wrappers
  import opened Paths
  import opened Rocketchat
  import opened Migrator
  import opened Policy

  /** Why a record was passed over. */
  datatype Skip = Incomplete | NotStaged | SourceFailed(fault: Fault)

  /** A record's fate: passed over, done with a value, or ending the run. */
  datatype Outcome<+T> = Skipped(why: Skip) | Done(value: T) | Fatal(fault: Fault)

  /** The destination Upload call: object path, local file, content type. */
  datatype UploadCall = UploadCall(objectPath: string, localPath: string, contentType: string)

  /** A migrated record: the upload made and the catalog update applied. */
  datatype Migration = Migration(upload: UploadCall, update: Update)

  /** The answers the source, destination and catalog give for one record. */
  datatype Calls = Calls(download: Result<string, Fault>, upload: Option<Fault>, update: Option<Fault>)

  /** The first failing call of a record, in download, upload, update order. */
  function FirstFault(c: Calls): Option<Fault>
  {
    if c.download.Err? then Some(c.download.error)
    else if c.upload.Some? then c.upload
    else c.update
  }

  /** Both providers are bound: the state MigrateStore's check admits. */
  predicate Bound(m: Migrate)
  {
    CheckMode(m, Transfer).None?
  }

  /** A download error that skips the record instead of ending the run. */
  predicate Tolerated(m: Migrate, fault: Fault)
  {
    fault == NotFound || m.skipErrors
  }

  /** The first half of a worker: completeness check, then the download. */
  function DownloadStage(m: Migrate, f: File, download: Result<string, Fault>): (o: Outcome<string>)
    ensures !f.complete ==> o == Skipped(Incomplete)
    ensures o.Skipped? <==> !f.complete || (download.Err? && Tolerated(m, download.error))
    ensures o.Fatal? <==> f.complete && download.Err? && !Tolerated(m, download.error)
    ensures o.Fatal? ==> o.fault == download.error
    ensures o.Done? ==> download == Ok(o.value)
  {
    if !f.complete then Skipped(Incomplete)
    else match download
      case Err(e) => if e == NotFound || m.skipErrors then Skipped(SourceFailed(e)) else Fatal(e)
      case Ok(local) => Done(local)
  }

  /** Upload a staged record, rewrite it, and update the catalog. */
  function PushAndRecord(m: Migrate, uniqueId: string, f: File, local: string,
                         upload: Option<Fault>, update: Option<Fault>): (o: Outcome<Migration>)
    requires m.destinationStore.Some?
    ensures !o.Skipped?
    ensures o.Fatal? <==> upload.Some? || update.Some?
    ensures o.Fatal? ==> o.fault == (if upload.Some? then upload.value else update.value)
    ensures o.Done? ==>
              var kind := m.destinationStore.value.kind;
              && o.value.upload == UploadCall(ObjectPath(m.storeName, uniqueId, kind, f), local, f.contentType)
              && o.value.update == UpdateFor(FixFileForUpload(f, kind, m.storeName, o.value.upload.objectPath))
  {
    var kind := m.destinationStore.value.kind;
    var objectPath := ObjectPath(m.storeName, uniqueId, kind, f);
    if upload.Some? then Fatal(upload.value)
    else
      var fixed := FixFileForUpload(f, kind, m.storeName, objectPath);
      if update.Some? then Fatal(update.value)
      else Done(Migration(UploadCall(objectPath, local, f.contentType), UpdateFor(fixed)))
  }

  /** The body of one MigrateStore worker. */
  function MigrateRecord(m: Migrate, uniqueId: string, f: File, calls: Calls): (o: Outcome<Migration>)
    requires Bound(m)
    ensures !f.complete ==> o == Skipped(Incomplete)
    ensures o.Skipped? <==> !f.complete || (calls.download.Err? && Tolerated(m, calls.download.error))
    ensures o.Fatal? <==>
              && f.complete
              && FirstFault(calls).Some?
              && !(calls.download.Err? && Tolerated(m, calls.download.error))
    ensures o.Fatal? ==> FirstFault(calls) == Some(o.fault)
    ensures o.Done? ==>
              var g := Defaulted(f, m.storeName);
              var kind := m.destinationStore.value.kind;
              && FirstFault(calls).None?
              && o.value.upload == UploadCall(ObjectPath(m.storeName, uniqueId, kind, g), calls.download.value, f.contentType)
              && o.value.update == UpdateFor(FixFileForUpload(g, kind, m.storeName, o.value.upload.objectPath))
              && o.value.update.id == f.id
  {
    match DownloadStage(m, f, calls.download)
    case Skipped(why) => Skipped(why)
    case Fatal(e) => Fatal(e)
    case Done(local) => PushAndRecord(m, uniqueId, Defaulted(f, m.storeName), local, calls.upload, calls.update)
  }

  /** A not-found download never ends a run, whatever the skip-errors flag says. */
  lemma NotFoundNeverFatal(m: Migrate, uniqueId: string, f: File, calls: Calls, skipErrors: bool)
    requires Bound(m)
    requires calls.download == Err(NotFound)
    ensures MigrateRecord(m.(skipErrors := skipErrors), uniqueId, f, calls).Skipped?
  {
  }

  /**
   * The skip-errors flag changes a record's outcome only by turning a fatal
   * download error into a skip; upload and update errors stay fatal.
   */
  lemma SkipErrorsOnlyRescuesDownloads(m: Migrate, uniqueId: string, f: File, calls: Calls)
    requires Bound(m)
    ensures var strict := MigrateRecord(m.(skipErrors := false), uniqueId, f, calls);
            var lenient := MigrateRecord(m.(skipErrors := true), uniqueId, f, calls);
            || strict == lenient
            || (&& strict.Fatal?
                && calls.download.Err?
                && lenient == Skipped(SourceFailed(calls.download.error)))
  {
  }

  /**
   * A migrated record is written back under its own id with the placeholders
   * filled in, pointing at the destination, with only the destination's
   * sub-document left and the other one named for `$unset`.
   */
  lemma MigratedRecordShape(m: Migrate, uniqueId: string, f: File, calls: Calls)
    requires Bound(m)
    requires MigrateRecord(m, uniqueId, f, calls).Done?
    ensures var mg := MigrateRecord(m, uniqueId, f, calls).value;
            var g := mg.update.record;
            var kind := m.destinationStore.value.kind;
            && SameIdentity(Defaulted(f, m.storeName), g)
            && g.id == f.id && g.name == f.name && g.complete
            && g.userId != ""
            && (m.storeName == Uploads ==> g.rid != "")
            && g.store == kind + ":" + m.storeName
            && g.url == g.path == UfsPath(kind, m.storeName, f.id, f.name)
            && ((kind == AmazonS3Kind || kind == GoogleCloudStorageKind) ==>
                  && Exclusive(g)
                  && mg.update.unset.Some?
                  && SubDocumentPath(g, mg.update.unset.value) == Some(""))
  {
    var g0 := Defaulted(f, m.storeName);
    var kind := m.destinationStore.value.kind;
    var path := ObjectPath(m.storeName, uniqueId, kind, g0);
    if kind == AmazonS3Kind || kind == GoogleCloudStorageKind {
      FixLocatesInDestination(g0, kind, m.storeName, path);
    }
  }

  /** A record migrated to a destination of another kind is not selected again. */
  lemma MigratedNotReselected(m: Migrate, uniqueId: string, f: File, calls: Calls)
    requires Bound(m)
    requires CandidateQuery(m).Ok?
    requires m.sourceStore.value.kind != m.destinationStore.value.kind
    requires MigrateRecord(m, uniqueId, f, calls).Done?
    ensures !Matches(CandidateQuery(m).value, MigrateRecord(m, uniqueId, f, calls).value.update.record)
  {
    var g0 := Defaulted(f, m.storeName);
    var kind := m.destinationStore.value.kind;
    FixedNotReselected(g0, m.sourceStore.value.kind, kind, m.storeName,
                       ObjectPath(m.storeName, uniqueId, kind, g0), CandidateQuery(m).value);
  }

  /** A migrated upload's object path has five segments, none of them empty but the namespace. */
  lemma MigratedUploadsPath(m: Migrate, uniqueId: string, f: File, calls: Calls)
    requires Bound(m) && m.storeName == Uploads
    requires m.destinationStore.value.kind != FileSystemKind
    requires AllSegments([uniqueId, f.rid, f.userId, f.id])
    requires MigrateRecord(m, uniqueId, f, calls).Done?
    ensures var segs := Split(MigrateRecord(m, uniqueId, f, calls).value.upload.objectPath);
            && |segs| == 5
            && segs[0] == uniqueId && segs[1] == "uploads" && segs[4] == f.id
            && segs[2] != "" && segs[3] != ""
  {
    var g := Defaulted(f, m.storeName);
    var given := [uniqueId, f.rid, f.userId, f.id];
    assert NoSep(uniqueId) && NoSep(f.rid) && NoSep(f.userId) && NoSep(f.id) by {
      assert given[0] == uniqueId && given[1] == f.rid && given[2] == f.userId && given[3] == f.id;
    }
    assert NoSep(Undefined);
    var segs := [uniqueId, g.rid, g.userId, g.id];
    assert AllSegments(segs) by {
      forall i | 0 <= i < 4
        ensures NoSep(segs[i])
      {
        if i == 1 { assert segs[i] == g.rid; } else if i == 2 { assert segs[i] == g.userId; }
      }
    }
    UploadsPathSegments(uniqueId, m.destinationStore.value.kind, g);
  }

  /** An avatar without a user is stored under `{namespace}/avatars/undefined`. */
  lemma AvatarWithoutUser(m: Migrate, uniqueId: string, f: File, local: string)
    requires Bound(m) && m.storeName == Avatars
    requires m.destinationStore.value.kind != FileSystemKind
    requires f.complete && f.userId == ""
    ensures MigrateRecord(m, uniqueId, f, Calls(Ok(local), None, None)).value.upload.objectPath
            == uniqueId + "/avatars/undefined"
  {
    AvatarsPathFormat(uniqueId, m.destinationStore.value.kind, Defaulted(f, m.storeName));
  }

  /** The index of the first fatal outcome, or the length when there is none. */
  function FirstFatal<T>(os: seq<Outcome<T>>): (k: nat)
    ensures k <= |os|
    ensures forall j :: 0 <= j < k ==> !os[j].Fatal?
    ensures k < |os| ==> os[k].Fatal?
  {
    if |os| == 0 then 0
    else if os[0].Fatal? then 0
    else 1 + FirstFatal(os[1..])
  }

  /** The values of the done outcomes, in order. */
  function DoneValues<T>(os: seq<Outcome<T>>): (vs: seq<T>)
    ensures |vs| <= |os|
  {
    if |os| == 0 then []
    else
      var init := DoneValues(os[..|os| - 1]);
      match os[|os| - 1]
      case Done(v) => init + [v]
      case _ => init
  }

  /** Each done value comes from a done outcome. */
  lemma {:induction false} DoneValueOrigin<T>(os: seq<Outcome<T>>, i: nat)
    requires i < |DoneValues(os)|
    ensures exists j :: 0 <= j < |os| && os[j] == Done(DoneValues(os)[i])
  {
    var init := os[..|os| - 1];
    if i < |DoneValues(init)| {
      DoneValueOrigin(init, i);
      var j :| 0 <= j < |init| && init[j] == Done(DoneValues(init)[i]);
      assert os[j] == init[j];
    } else {
      assert os[|os| - 1] == Done(DoneValues(os)[i]);
    }
  }

  /** Every done outcome contributes its value. */
  lemma {:induction false} DoneValueKept<T>(os: seq<Outcome<T>>, j: nat)
    requires j < |os| && os[j].Done?
    ensures os[j].value in DoneValues(os)
  {
    var init := os[..|os| - 1];
    if j < |os| - 1 {
      assert init[j] == os[j];
      DoneValueKept(init, j);
    }
  }

  function CountSkipped<T>(os: seq<Outcome<T>>): nat
  {
    if |os| == 0 then 0
    else CountSkipped(os[..|os| - 1]) + (if os[|os| - 1].Skipped? then 1 else 0)
  }

  /** Without a fatal outcome every record is either done or skipped. */
  lemma {:induction false} TallyCoversAll<T>(os: seq<Outcome<T>>)
    requires FirstFatal(os) == |os|
    ensures |DoneValues(os)| + CountSkipped(os) == |os|
  {
    if |os| > 0 {
      var init := os[..|os| - 1];
      assert FirstFatal(init) == |init| by {
        assert forall j :: 0 <= j < |init| ==> init[j] == os[j];
      }
      TallyCoversAll(init);
    }
  }

  /** A run's verdict: the first fatal fault, or the values of all done records. */
  function Collect<T>(os: seq<Outcome<T>>): (r: Result<seq<T>, Fault>)
    ensures r.Ok? <==> forall j :: 0 <= j < |os| ==> !os[j].Fatal?
    ensures r.Ok? ==> r.value == DoneValues(os)
    ensures r.Err? ==> exists j :: && 0 <= j < |os|
                                   && os[j] == Fatal(r.error)
                                   && forall i :: 0 <= i < j ==> !os[i].Fatal?
  {
    var k := FirstFatal(os);
    if k < |os| then Err(os[k].fault) else Ok(DoneValues(os))
  }

  /** MigrateStore's outcome for each candidate, in enumeration order. */
  function MigrateOutcomes(m: Migrate, uniqueId: string, files: seq<File>, calls: string -> Calls): (os: seq<Outcome<Migration>>)
    requires Bound(m)
    ensures |os| == |files|
    ensures forall j :: 0 <= j < |files| ==> os[j] == MigrateRecord(m, uniqueId, files[j], calls(files[j].id))
  {
    seq(|files|, j requires 0 <= j < |files| => MigrateRecord(m, uniqueId, files[j], calls(files[j].id)))
  }

  /**
   * MigrateStore with the workers' outcomes taken in enumeration order: a
   * fatal outcome ends the run with its fault, otherwise the run reports the
   * migrations made.
   */
  function MigrateStore(m: Migrate, uniqueId: string, db: map<string, seq<File>>, calls: string -> Calls)
    : (r: Result<seq<Migration>, Error>)
    ensures CheckMode(m, Transfer).Some? ==> r == Err(MissingStores(Transfer))
    ensures r.Ok? ==> Bound(m) && IsStoreName(m.storeName)
    ensures CheckMode(m, Transfer).None? && CandidateQuery(m).Ok? ==>
              var files := Candidates(CandidateQuery(m).value, db);
              r.Ok? <==> forall j :: 0 <= j < |files| ==>
                           !MigrateRecord(m, uniqueId, files[j], calls(files[j].id)).Fatal?
    ensures CheckMode(m, Transfer).None? && CandidateQuery(m).Err? ==> r == Err(CandidateQuery(m).error)
    ensures CheckMode(m, Transfer).None? && CandidateQuery(m).Ok? ==>
              var os := MigrateOutcomes(m, uniqueId, Candidates(CandidateQuery(m).value, db), calls);
              && (r.Ok? ==> r.value == DoneValues(os))
              && (r.Err? ==> FirstFatal(os) < |os| && r == Err(Failed(os[FirstFatal(os)].fault)))
  {
    if CheckMode(m, Transfer).Some? then Err(CheckMode(m, Transfer).value)
    else match CandidateQuery(m)
      case Err(e) => Err(e)
      case Ok(q) =>
        match Collect(MigrateOutcomes(m, uniqueId, Candidates(q, db), calls))
        case Ok(migrations) => Ok(migrations)
        case Err(fault) => Err(Failed(fault))
  }

  /**
   * Every catalog update of a successful MigrateStore targets a complete
   * record of the store's collection that matched the query, and its object
   * was downloaded.
   */
  lemma MigrateStoreTouchesOnlyCompleteCandidates(m: Migrate, uniqueId: string, db: map<string, seq<File>>,
                                                  calls: string -> Calls, mg: Migration)
    requires MigrateStore(m, uniqueId, db, calls).Ok?
    requires mg in MigrateStore(m, uniqueId, db, calls).value
    ensures CandidateQuery(m).Ok?
    ensures var q := CandidateQuery(m).value;
            exists f :: && f in Candidates(q, db)
                        && Matches(q, f)
                        && f.complete
                        && mg.update.id == f.id
                        && calls(f.id).download.Ok?
  {
    var q := CandidateQuery(m).value;
    var files := Candidates(q, db);
    var os := MigrateOutcomes(m, uniqueId, files, calls);
    assert mg in DoneValues(os);
    var i :| 0 <= i < |DoneValues(os)| && DoneValues(os)[i] == mg;
    DoneValueOrigin(os, i);
    var j :| 0 <= j < |os| && os[j] == Done(mg);
    var f := files[j];
    assert MigrateRecord(m, uniqueId, f, calls(f.id)).Done?;
    assert f in files;
  }

  /**
   * A successful run migrates every complete candidate whose download
   * succeeded: its upload is made and its catalog update applied.
   */
  lemma MigrateStoreMigratesEveryDownloaded(m: Migrate, uniqueId: string, db: map<string, seq<File>>,
                                            calls: string -> Calls, f: File)
    requires MigrateStore(m, uniqueId, db, calls).Ok?
    requires CandidateQuery(m).Ok? && f in Candidates(CandidateQuery(m).value, db)
    requires f.complete && calls(f.id).download.Ok?
    ensures MigrateRecord(m, uniqueId, f, calls(f.id)).Done?
    ensures MigrateRecord(m, uniqueId, f, calls(f.id)).value in MigrateStore(m, uniqueId, db, calls).value
  {
    var files := Candidates(CandidateQuery(m).value, db);
    var os := MigrateOutcomes(m, uniqueId, files, calls);
    var j :| 0 <= j < |files| && files[j] == f;
    assert os[j] == MigrateRecord(m, uniqueId, f, calls(f.id));
    DoneValueKept(os, j);
  }

  /** One skipped record followed by two done ones: two values, one skip. */
  lemma SkipThenTwoDone<T>(x: Outcome<T>, y: Outcome<T>, z: Outcome<T>)
    requires x.Skipped? && y.Done? && z.Done?
    ensures Collect([x, y, z]) == Ok([y.value, z.value])
    ensures CountSkipped([x, y, z]) == 1
  {
    assert [x, y, z][..2] == [x, y];
    assert [x, y][..1] == [x];
    assert [x][..0] == [];
    assert DoneValues([x, y]) == [y.value];
    assert CountSkipped([x]) == 1;
    assert CountSkipped([x, y]) == 1;
    assert DoneValues([x, y, z]) == [y.value, z.value];
    assert forall j :: 0 <= j < 3 ==> ![x, y, z][j].Fatal?;
    assert FirstFatal([x, y, z]) == 3;
  }

  /** The three-record run: a not-found first record is skipped, the other two migrate. */
  lemma ThreeRecordRun(m: Migrate, uniqueId: string, a: File, b: File, c: File, calls: string -> Calls)
    requires Bound(m)
    requires a.complete && b.complete && c.complete
    requires calls(a.id).download == Err(NotFound)
    requires FirstFault(calls(b.id)).None? && FirstFault(calls(c.id)).None?
    ensures var os := MigrateOutcomes(m, uniqueId, [a, b, c], calls);
            && Collect(os).Ok?
            && |Collect(os).value| == 2
            && CountSkipped(os) == 1
  {
    var os := MigrateOutcomes(m, uniqueId, [a, b, c], calls);
    var x := MigrateRecord(m, uniqueId, a, calls(a.id));
    var y := MigrateRecord(m, uniqueId, b, calls(b.id));
    var z := MigrateRecord(m, uniqueId, c, calls(c.id));
    assert os == [x, y, z];
    SkipThenTwoDone(x, y, z);
  }

  /** DownloadAll's outcome for each candidate, in enumeration order. */
  function DownloadOutcomes(m: Migrate, files: seq<File>, download: string -> Result<string, Fault>)
    : (os: seq<Outcome<string>>)
    ensures |os| == |files|
    ensures forall j :: 0 <= j < |files| ==> os[j] == DownloadStage(m, files[j], download(files[j].id))
  {
    seq(|files|, j requires 0 <= j < |files| => DownloadStage(m, files[j], download(files[j].id)))
  }

  /** DownloadAll: stage every complete candidate's object locally. */
  function DownloadAll(m: Migrate, db: map<string, seq<File>>, download: string -> Result<string, Fault>)
    : (r: Result<seq<string>, Error>)
    ensures CheckMode(m, DownloadOnly).Some? ==> r == Err(MissingStores(DownloadOnly))
    ensures r.Ok? ==> m.sourceStore.Some? && IsStoreName(m.storeName)
    ensures CheckMode(m, DownloadOnly).None? && CandidateQuery(m).Err? ==> r == Err(CandidateQuery(m).error)
    ensures CheckMode(m, DownloadOnly).None? && CandidateQuery(m).Ok? ==>
              var os := DownloadOutcomes(m, Candidates(CandidateQuery(m).value, db), download);
              && (r.Ok? <==> FirstFatal(os) == |os|)
              && (r.Ok? ==> r.value == DoneValues(os))
              && (r.Err? ==> r == Err(Failed(os[FirstFatal(os)].fault)))
  {
    if CheckMode(m, DownloadOnly).Some? then Err(CheckMode(m, DownloadOnly).value)
    else match CandidateQuery(m)
      case Err(e) => Err(e)
      case Ok(q) =>
        match Collect(DownloadOutcomes(m, Candidates(q, db), download))
        case Ok(paths) => Ok(paths)
        case Err(fault) => Err(Failed(fault))
  }

  /**
   * Every file a successful DownloadAll stages is the download of a complete
   * candidate record; incomplete records are never downloaded.
   */
  lemma DownloadAllStagesOnlyCompleteCandidates(m: Migrate, db: map<string, seq<File>>,
                                                download: string -> Result<string, Fault>, p: string)
    requires DownloadAll(m, db, download).Ok?
    requires p in DownloadAll(m, db, download).value
    ensures CandidateQuery(m).Ok?
    ensures exists f :: && f in Candidates(CandidateQuery(m).value, db)
                        && f.complete
                        && download(f.id) == Ok(p)
  {
    var files := Candidates(CandidateQuery(m).value, db);
    var os := DownloadOutcomes(m, files, download);
    var i :| 0 <= i < |DoneValues(os)| && DoneValues(os)[i] == p;
    DoneValueOrigin(os, i);
    var j :| 0 <= j < |os| && os[j] == Done(p);
    assert files[j] in files;
  }

  /** One iteration of UploadAll's loop: staged check, completeness, then push. */
  function UploadRecord(m: Migrate, uniqueId: string, root: string, staged: set<string>, f: File,
                        upload: Option<Fault>, update: Option<Fault>): (o: Outcome<Migration>)
    requires m.destinationStore.Some?
    ensures root + "/" + f.id !in staged ==> o == Skipped(NotStaged)
    ensures o == Skipped(Incomplete) <==> root + "/" + f.id in staged && !f.complete
    ensures o.Fatal? <==> root + "/" + f.id in staged && f.complete && (upload.Some? || update.Some?)
    ensures o.Fatal? ==> o.fault == (if upload.Some? then upload.value else update.value)
    ensures o.Done? ==>
              var kind := m.destinationStore.value.kind;
              && o.value.upload.localPath == root + "/" + f.id
              && o.value.upload.objectPath == ObjectPath(m.storeName, uniqueId, kind, f)
              && o.value.upload.contentType == f.contentType
              && o.value.update == UpdateFor(FixFileForUpload(f, kind, m.storeName, o.value.upload.objectPath))
              && o.value.update.id == f.id
  {
    var location := root + "/" + f.id;
    if location !in staged then Skipped(NotStaged)
    else if !f.complete then Skipped(Incomplete)
    else PushAndRecord(m, uniqueId, f, location, upload, update)
  }

  /** A successful DownloadAll stages every complete candidate whose download succeeded. */
  lemma DownloadAllStagesEveryDownload(m: Migrate, db: map<string, seq<File>>,
                                       download: string -> Result<string, Fault>, f: File)
    requires DownloadAll(m, db, download).Ok?
    requires CandidateQuery(m).Ok? && f in Candidates(CandidateQuery(m).value, db)
    requires f.complete && download(f.id).Ok?
    ensures download(f.id).value in DownloadAll(m, db, download).value
  {
    var files := Candidates(CandidateQuery(m).value, db);
    var os := DownloadOutcomes(m, files, download);
    var j :| 0 <= j < |files| && files[j] == f;
    assert os[j] == Done(download(f.id).value);
    DoneValueKept(os, j);
  }

  /** UploadAll's outcome for each candidate, with staged files under root. */
  function UploadOutcomes(m: Migrate, uniqueId: string, root: string, staged: set<string>, files: seq<File>,
                          upload: string -> Option<Fault>, update: string -> Option<Fault>)
    : (os: seq<Outcome<Migration>>)
    requires m.destinationStore.Some?
    ensures |os| == |files|
    ensures forall j :: 0 <= j < |files| ==>
              os[j] == UploadRecord(m, uniqueId, root, staged, files[j], upload(files[j].id), update(files[j].id))
  {
    seq(|files|, j requires 0 <= j < |files| =>
          UploadRecord(m, uniqueId, root, staged, files[j], upload(files[j].id), update(files[j].id)))
  }

  /** UploadAll's records and their outcomes, or the error it returns before the loop. */
  function UploadPlan(m: Migrate, uniqueId: string, filesRoot: string, db: map<string, seq<File>>,
                      staged: set<string>, upload: string -> Option<Fault>, update: string -> Option<Fault>)
    : (r: Result<seq<Outcome<Migration>>, Error>)
    ensures CheckMode(m, UploadOnly).Some? ==> r == Err(MissingStores(UploadOnly))
    ensures r.Ok? ==> m.destinationStore.Some? && CandidateQuery(m).Ok?
    ensures CheckMode(m, UploadOnly).None? && CandidateQuery(m).Err? ==> r == Err(CandidateQuery(m).error)
    ensures r.Ok? ==> |r.value| == |Candidates(CandidateQuery(m).value, db)|
    ensures r.Ok? ==>
              var files := Candidates(CandidateQuery(m).value, db);
              forall j :: 0 <= j < |files| ==>
                r.value[j] == UploadRecord(m, uniqueId, filesRoot + "/" + Lower(m.storeName), staged,
                                           files[j], upload(files[j].id), update(files[j].id))
  {
    if CheckMode(m, UploadOnly).Some? then Err(CheckMode(m, UploadOnly).value)
    else match CandidateQuery(m)
      case Err(e) => Err(e)
      case Ok(q) =>
        Ok(UploadOutcomes(m, uniqueId, filesRoot + "/" + Lower(m.storeName), staged, Candidates(q, db), upload, update))
  }

  /** Extending a prefix by one outcome extends its done values by at most that value. */
  lemma DoneValuesStep<T>(os: seq<Outcome<T>>, i: nat)
    requires i < |os|
    ensures DoneValues(os[..i + 1]) == DoneValues(os[..i]) + (if os[i].Done? then [os[i].value] else [])
  {
    assert os[..i + 1][..i] == os[..i];
  }

  /** A fatal outcome preceded only by non-fatal ones is the first fatal one. */
  lemma FirstFatalAt<T>(os: seq<Outcome<T>>, i: nat)
    requires i < |os| && os[i].Fatal?
    requires i <= FirstFatal(os)
    ensures FirstFatal(os) == i
  {
  }

  /** The outcome of the i-th candidate, as one iteration of UploadAll's loop computes it. */
  function UploadStep(m: Migrate, uniqueId: string, root: string, staged: set<string>, files: seq<File>,
                      upload: string -> Option<Fault>, update: string -> Option<Fault>, i: nat)
    : (o: Outcome<Migration>)
    requires m.destinationStore.Some? && i < |files|
    ensures o == UploadOutcomes(m, uniqueId, root, staged, files, upload, update)[i]
  {
    UploadRecord(m, uniqueId, root, staged, files[i], upload(files[i].id), update(files[i].id))
  }

  /**
   * UploadAll's loop: records are handled one after another and the first
   * upload or update error is returned at once, so the updates applied are
   * exactly those of the records before it.
   */
  method UploadLoop(m: Migrate, uniqueId: string, root: string, staged: set<string>, files: seq<File>,
                    upload: string -> Option<Fault>, update: string -> Option<Fault>)
    returns (applied: seq<Migration>, err: Option<Fault>)
    requires m.destinationStore.Some?
    ensures var os := UploadOutcomes(m, uniqueId, root, staged, files, upload, update);
            var k := FirstFatal(os);
            && applied == DoneValues(os[..k])
            && (err.None? <==> k == |os|)
            && (k < |os| ==> err == Some(os[k].fault))
  {
    ghost var os := UploadOutcomes(m, uniqueId, root, staged, files, upload, update);
    applied := [];
    var i := 0;
    while i < |files|
      invariant 0 <= i <= |files|
      invariant i <= FirstFatal(os)
      invariant applied == DoneValues(os[..i])
    {
      var o := UploadStep(m, uniqueId, root, staged, files, upload, update, i);
      if o.Fatal? {
        FirstFatalAt(os, i);
        return applied, Some(o.fault);
      }
      DoneValuesStep(os, i);
      if o.Done? {
        applied := applied + [o.value];
      }
      i := i + 1;
    }
    assert FirstFatal(os) == i;
    err := None;
  }

  /** UploadAll: the mode check and getFiles, then the sequential loop. */
  method UploadAll(m: Migrate, uniqueId: string, filesRoot: string, db: map<string, seq<File>>,
                   staged: set<string>, upload: string -> Option<Fault>, update: string -> Option<Fault>)
    returns (applied: seq<Migration>, err: Option<Error>)
    ensures var plan := UploadPlan(m, uniqueId, filesRoot, db, staged, upload, update);
            plan.Err? ==> applied == [] && err == Some(plan.error)
    ensures var plan := UploadPlan(m, uniqueId, filesRoot, db, staged, upload, update);
            plan.Ok? ==>
              var k := FirstFatal(plan.value);
              && applied == DoneValues(plan.value[..k])
              && (err.None? <==> k == |plan.value|)
              && (k < |plan.value| ==> err == Some(Failed(plan.value[k].fault)))
  {
    var modeError := CheckMode(m, UploadOnly);
    if modeError.Some? {
      return [], modeError;
    }
    var query := CandidateQuery(m);
    if query.Err? {
      return [], Some(query.error);
    }
    var root := filesRoot + "/" + Lower(m.storeName);
    var fault;
    applied, fault := UploadLoop(m, uniqueId, root, staged, Candidates(query.value, db), upload, update);
    err := if fault.Some? then Some(Failed(fault.value)) else None;
  }

  /** UploadAll computes the path from the record as stored: empty ids stay empty. */
  lemma UploadAllKeepsEmptyIds(m: Migrate, uniqueId: string, root: string, f: File)
    requires m.destinationStore.Some? && m.storeName == Uploads
    requires m.destinationStore.value.kind != FileSystemKind
    requires f.complete && f.rid == "" && f.userId == ""
    ensures UploadRecord(m, uniqueId, root, {root + "/" + f.id}, f, None, None).value.upload.objectPath
            == uniqueId + "/uploads///" + f.id
  {
    UploadsPathFormat(uniqueId, m.destinationStore.value.kind, f);
  }

  /** MigrateStore fills in the placeholders before computing the path. */
  lemma MigrateStoreFillsEmptyIds(m: Migrate, uniqueId: string, f: File, local: string)
    requires Bound(m) && m.storeName == Uploads
    requires m.destinationStore.value.kind != FileSystemKind
    requires f.complete && f.rid == "" && f.userId == ""
    ensures MigrateRecord(m, uniqueId, f, Calls(Ok(local), None, None)).value.upload.objectPath
            == uniqueId + "/uploads/undefined/undefined/" + f.id
  {
    var kind := m.destinationStore.value.kind;
    var g := Defaulted(f, m.storeName);
    assert ObjectPath(Uploads, uniqueId, kind, g) == uniqueId + "/uploads/undefined/undefined/" + f.id by {
      UploadsPathFormat(uniqueId, kind, g);
      assert g.rid == Undefined && g.userId == Undefined && g.id == f.id;
    }
  }
}

=== FILE: policy.dfy ===
/**
 * The path and record policy: where a record's object goes in the
 * destination (getObjectPath), how the record is rewritten to point there
 * (fixFileForUpload), and the "undefined" defaulting MigrateStore applies
 * before computing the path.
 */
module Policy {
  import opened Wrappers
  import opened Paths
  import opened Rocketchat
  import opened Migrator

  const AmazonS3Kind := "AmazonS3"
  const GoogleCloudStorageKind := "GoogleCloudStorage"
  const FileSystemKind := "FileSystem"

  /** The placeholder written for a missing room or user id. */
  const Undefined := "undefined"

  /** The destination object path of a record. */
  function ObjectPath(storeName: string, uniqueId: string, destKind: string, f: File): (p: string)
    ensures destKind == FileSystemKind ==> p == f.id
    ensures destKind != FileSystemKind && !IsStoreName(storeName) ==> p == ""
  {
    var objectPath :=
      if storeName == Uploads then Join([uniqueId, Lower(storeName), f.rid, f.userId, f.id])
      else if storeName == Avatars then Join([uniqueId, Lower(storeName), f.userId])
      else "";
    if destKind == FileSystemKind then f.id else objectPath
  }

  /** The Uploads path is `uniqueID/uploads/Rid/UserID/ID`. */
  lemma UploadsPathFormat(uniqueId: string, destKind: string, f: File)
    requires destKind != FileSystemKind
    ensures ObjectPath(Uploads, uniqueId, destKind, f)
            == uniqueId + "/uploads/" + f.rid + "/" + f.userId + "/" + f.id
  {
    LowerStoreNames();
    JoinFive(uniqueId, "uploads", f.rid, f.userId, f.id);
  }

  /** The Avatars path is `uniqueID/avatars/UserID`. */
  lemma AvatarsPathFormat(uniqueId: string, destKind: string, f: File)
    requires destKind != FileSystemKind
    ensures ObjectPath(Avatars, uniqueId, destKind, f) == uniqueId + "/avatars/" + f.userId
  {
    LowerStoreNames();
    JoinThree(uniqueId, "avatars", f.userId);
  }

  /** An Uploads path reads back as namespace, "uploads", room, user and record id. */
  lemma UploadsPathSegments(uniqueId: string, destKind: string, f: File)
    requires destKind != FileSystemKind
    requires AllSegments([uniqueId, f.rid, f.userId, f.id])
    ensures Split(ObjectPath(Uploads, uniqueId, destKind, f)) == [uniqueId, "uploads", f.rid, f.userId, f.id]
  {
    LowerStoreNames();
    var segs := [uniqueId, "uploads", f.rid, f.userId, f.id];
    assert AllSegments(segs) by {
      assert forall i :: 0 <= i < 5 && i != 1 ==> segs[i] in [uniqueId, f.rid, f.userId, f.id];
    }
    SplitJoin(segs);
  }

  /** An Avatars path reads back as namespace, "avatars" and user id. */
  lemma AvatarsPathSegments(uniqueId: string, destKind: string, f: File)
    requires destKind != FileSystemKind
    requires AllSegments([uniqueId, f.userId])
    ensures Split(ObjectPath(Avatars, uniqueId, destKind, f)) == [uniqueId, "avatars", f.userId]
  {
    LowerStoreNames();
    var segs := [uniqueId, "avatars", f.userId];
    assert AllSegments(segs) by {
      assert forall i :: 0 <= i < 3 && i != 1 ==> segs[i] in [uniqueId, f.userId];
    }
    SplitJoin(segs);
  }

  /** Two uploads land on one path only if they agree on room, user and id. */
  lemma UploadsPathsDistinct(uniqueId: string, destKind: string, f: File, g: File)
    requires destKind != FileSystemKind
    requires AllSegments([uniqueId, f.rid, f.userId, f.id])
    requires AllSegments([uniqueId, g.rid, g.userId, g.id])
    requires (f.rid, f.userId, f.id) != (g.rid, g.userId, g.id)
    ensures ObjectPath(Uploads, uniqueId, destKind, f) != ObjectPath(Uploads, uniqueId, destKind, g)
  {
    UploadsPathSegments(uniqueId, destKind, f);
    UploadsPathSegments(uniqueId, destKind, g);
  }

  /** Avatars share a path exactly when they belong to the same user. */
  lemma AvatarPathPerUser(uniqueId: string, destKind: string, f: File, g: File)
    requires destKind != FileSystemKind
    requires AllSegments([uniqueId, f.userId]) && AllSegments([uniqueId, g.userId])
    ensures ObjectPath(Avatars, uniqueId, destKind, f) == ObjectPath(Avatars, uniqueId, destKind, g)
        <==> f.userId == g.userId
  {
    AvatarsPathSegments(uniqueId, destKind, f);
    AvatarsPathSegments(uniqueId, destKind, g);
  }

  /** The served URL of a record stored in kind:storeName. */
  function UfsPath(kind: string, storeName: string, id: string, name: string): string
  {
    "/ufs/" + kind + ":" + storeName + "/" + id + "/" + name
  }

  /** The served URL reads back as "", "ufs", the descriptor, the id and the name. */
  lemma UfsPathSegments(kind: string, storeName: string, id: string, name: string)
    requires AllSegments([kind, storeName, id, name])
    ensures Split(UfsPath(kind, storeName, id, name)) == ["", "ufs", kind + ":" + storeName, id, name]
  {
    var descriptor := kind + ":" + storeName;
    assert NoSep(kind) && NoSep(storeName) && NoSep(id) && NoSep(name) by {
      assert [kind, storeName, id, name][0] == kind;
      assert [kind, storeName, id, name][1] == storeName;
      assert [kind, storeName, id, name][2] == id;
      assert [kind, storeName, id, name][3] == name;
    }
    assert NoSep(descriptor) by {
      assert forall i :: 0 <= i < |descriptor| ==>
        descriptor[i] == (if i < |kind| then kind[i] else if i == |kind| then ':' else storeName[i - |kind| - 1]);
    }
    var segs := ["", "ufs", descriptor, id, name];
    JoinFive("", "ufs", descriptor, id, name);
    assert Join(segs) == UfsPath(kind, storeName, id, name);
    SplitJoin(segs);
  }

  /** The rewritten record and the name of the field to `$unset` ("" for none). */
  datatype Fixed = Fixed(file: File, unset: string)

  /** The fields a rewrite for upload never touches. */
  predicate SameIdentity(f: File, g: File)
  {
    && g.id == f.id
    && g.name == f.name
    && g.contentType == f.contentType
    && g.userId == f.userId
    && g.rid == f.rid
    && g.complete == f.complete
    && g.uploadedAt == f.uploadedAt
  }

  function FixFileForUpload(f: File, destKind: string, storeName: string, objectPath: string): (r: Fixed)
    ensures destKind == AmazonS3Kind ==>
              && r.file.amazonS3 == AmazonS3(objectPath)
              && r.file.googleStorage == GoogleStorage("")
              && r.unset == "GoogleStorage"
    ensures destKind == GoogleCloudStorageKind ==>
              && r.file.googleStorage == GoogleStorage(objectPath)
              && r.file.amazonS3 == AmazonS3("")
              && r.unset == "AmazonS3"
    ensures destKind != AmazonS3Kind && destKind != GoogleCloudStorageKind ==>
              && r.unset == ""
              && r.file.amazonS3 == f.amazonS3
              && r.file.googleStorage == f.googleStorage
    ensures r.file.url == UfsPath(destKind, storeName, f.id, f.name)
    ensures r.file.path == r.file.url
    ensures r.file.store == destKind + ":" + storeName
    ensures SameIdentity(f, r.file)
  {
    var located :=
      if destKind == AmazonS3Kind then
        Fixed(f.(amazonS3 := AmazonS3(objectPath), googleStorage := GoogleStorage("")), "GoogleStorage")
      else if destKind == GoogleCloudStorageKind then
        Fixed(f.(googleStorage := GoogleStorage(objectPath), amazonS3 := AmazonS3("")), "AmazonS3")
      else
        Fixed(f, "");
    var ufsPath := UfsPath(destKind, storeName, located.file.id, located.file.name);
    located.(file := located.file.(url := ufsPath, path := ufsPath, store := destKind + ":" + storeName))
  }

  /**
   * An object-store destination leaves exactly its own sub-document populated
   * (for a non-empty path), and the field named for `$unset` is the other,
   * now empty, one.
   */
  lemma FixLocatesInDestination(f: File, destKind: string, storeName: string, objectPath: string)
    requires destKind == AmazonS3Kind || destKind == GoogleCloudStorageKind
    ensures var r := FixFileForUpload(f, destKind, storeName, objectPath);
            && Exclusive(r.file)
            && SubDocumentPath(r.file, r.unset) == Some("")
            && (objectPath != "" ==>
                  BackendOf(r.file) == (if destKind == AmazonS3Kind then OnAmazonS3(objectPath)
                                        else OnGoogleStorage(objectPath)))
  {
  }

  /**
   * Outside the two object stores nothing is unset: the record keeps the
   * backend location it had, next to a descriptor naming the new kind.
   */
  lemma FixKeepsLocationOutsideObjectStores(f: File, destKind: string, storeName: string, objectPath: string)
    requires destKind != AmazonS3Kind && destKind != GoogleCloudStorageKind
    ensures var r := FixFileForUpload(f, destKind, storeName, objectPath);
            && r.unset == ""
            && BackendOf(r.file) == BackendOf(f)
            && r.file.store == destKind + ":" + storeName
  {
  }

  /** Rewriting an already rewritten record changes nothing. */
  lemma FixIdempotent(f: File, destKind: string, storeName: string, objectPath: string)
    ensures var r := FixFileForUpload(f, destKind, storeName, objectPath);
            FixFileForUpload(r.file, destKind, storeName, objectPath) == r
  {
  }

  /**
   * A record rewritten for a destination of another kind no longer matches a
   * query on the source's store descriptor, so a rerun does not select it.
   */
  lemma FixedNotReselected(f: File, srcKind: string, destKind: string, storeName: string,
                           objectPath: string, q: Query)
    requires srcKind != destKind
    requires q.store == srcKind + ":" + storeName
    ensures !Matches(q, FixFileForUpload(f, destKind, storeName, objectPath).file)
  {
    if Matches(q, FixFileForUpload(f, destKind, storeName, objectPath).file) {
      DescriptorDeterminesKind(srcKind, destKind, storeName);
    }
  }

  /** The record with an empty user id, and an empty room id of an upload, replaced. */
  function Defaulted(f: File, storeName: string): (g: File)
    ensures g.userId != "" && (storeName == Uploads ==> g.rid != "")
    ensures f.userId == "" ==> g.userId == Undefined
    ensures f.userId != "" ==> g.userId == f.userId
    ensures f.rid == "" && storeName == Uploads ==> g.rid == Undefined
    ensures f.rid != "" || storeName != Uploads ==> g.rid == f.rid
    ensures g == f.(rid := g.rid, userId := g.userId)
  {
    var withRoom := if f.rid == "" && storeName == Uploads then f.(rid := Undefined) else f;
    if withRoom.userId == "" then withRoom.(userId := Undefined) else withRoom
  }

  /** The record update sent to the catalog: `$set` the whole record, `$unset` at most one field. */
  datatype Update = Update(id: string, record: File, unset: Option<string>)

  function UpdateFor(fx: Fixed): (u: Update)
    ensures u.id == fx.file.id && u.record == fx.file
    ensures u.unset.None? <==> fx.unset == ""
    ensures u.unset.Some? ==> u.unset.value == fx.unset
  {
    Update(fx.file.id, fx.file, if fx.unset != "" then Some(fx.unset) else None)
  }
}

=== FILE: rocketchat.dfy ===
/**
 * The catalog's file record (rocketchat.File) as far as the migrator reads
 * and writes it. The Go definition of the record is not part of this model;
 * its fields are the ones the migrator touches.
 */
module Rocketchat {
  import opened Wrappers

  /** A point in time in nanoseconds since Go's zero time; 0 is time.Time{}. */
  type Instant = int

  const ZeroTime: Instant := 0

  /** The Amazon S3 sub-document; an empty path is the empty object. */
  datatype AmazonS3 = AmazonS3(path: string)

  /** The Google Cloud Storage sub-document; an empty path is the empty object. */
  datatype GoogleStorage = GoogleStorage(path: string)

  datatype File = File(
    id: string,
    name: string,
    contentType: string,
    userId: string,
    rid: string,
    complete: bool,
    uploadedAt: Instant,
    store: string,
    url: string,
    path: string,
    amazonS3: AmazonS3,
    googleStorage: GoogleStorage)

  /** The backend location the two sub-documents describe, as a tagged variant. */
  datatype Backend =
    | OnAmazonS3(path: string)
    | OnGoogleStorage(path: string)
    | Unlocated
    | Conflicting

  function BackendOf(f: File): Backend
  {
    if f.amazonS3.path != "" && f.googleStorage.path != "" then Conflicting
    else if f.amazonS3.path != "" then OnAmazonS3(f.amazonS3.path)
    else if f.googleStorage.path != "" then OnGoogleStorage(f.googleStorage.path)
    else Unlocated
  }

  /** At most one backend sub-document is populated. */
  predicate Exclusive(f: File)
  {
    !BackendOf(f).Conflicting?
  }

  /** The path held by the sub-document stored under the given field name. */
  function SubDocumentPath(f: File, field: string): Option<string>
  {
    if field == "AmazonS3" then Some(f.amazonS3.path)
    else if field == "GoogleStorage" then Some(f.googleStorage.path)
    else None
  }
}

=== FILE: signals.dfy ===
/**
 * DownloadAll's worker pool and its completion signals. Each worker that does
 * not fail sends one signal on an unbuffered channel and then returns; a
 * failing worker hands its error to a listener that panics. The run returns
 * only once its WaitGroup drains, that is, once every worker has returned, so
 * every signal sent must be received by the launching loop.
 */
module Signals {
  import opened Wrappers
  import opened Rocketchat
  import opened Migrator
  import opened Pipeline

  /** The number of workers that send a completion signal: those that do not fail. */
  function SignalsSent<T>(os: seq<Outcome<T>>): (n: nat)
    ensures n <= |os|
    ensures n == |os| <==> FirstFatal(os) == |os|
  {
    if |os| == 0 then 0
    else (if os[0].Fatal? then 0 else 1) + SignalsSent(os[1..])
  }

  /**
   * The receives DownloadAll's launch loop performs, as written: a single one,
   * just before launching the worker whose index equals the concurrency width.
   */
  function ReceivesAsWritten(n: nat, width: int): (r: nat)
    ensures r <= 1
  {
    if 0 <= width < n then 1 else 0
  }

  /**
   * DownloadAll as written returns: no worker fails (the listener would
   * panic), the loop's receive has a worker launched before it to hear from
   * (a width of zero waits before the first launch), and every signal sent
   * is received, so no worker stays blocked and the WaitGroup drains.
   */
  predicate ReturnsAsWritten<T>(os: seq<Outcome<T>>, width: int)
  {
    && FirstFatal(os) == |os|
    && (width == 0 ==> |os| == 0)
    && SignalsSent(os) == ReceivesAsWritten(|os|, width)
  }

  /** As written, DownloadAll returns only when there is nothing to download. */
  lemma AsWrittenReturnsOnlyWhenEmpty<T>(os: seq<Outcome<T>>, width: int)
    ensures ReturnsAsWritten(os, width) <==> |os| == 0
  {
  }

  /**
   * A catalog holding one complete record that downloads: the model's
   * DownloadAll succeeds with its staged path, while the code as written
   * leaves the worker blocked on its completion signal under the default
   * width of one.
   */
  lemma OneDownloadBlocksAsWritten(m: Migrate, db: map<string, seq<File>>,
                                   download: string -> Result<string, Fault>, f: File, local: string)
    requires CheckMode(m, DownloadOnly).None? && CandidateQuery(m).Ok?
    requires Matches(CandidateQuery(m).value, f)
    requires db == map[CandidateQuery(m).value.collection := [f]]
    requires f.complete && download(f.id) == Ok(local)
    ensures DownloadAll(m, db, download) == Ok([local])
    ensures !ReturnsAsWritten(DownloadOutcomes(m, Candidates(CandidateQuery(m).value, db), download), 1)
  {
    var q := CandidateQuery(m).value;
    assert [f][1..] == [];
    assert Candidates(q, db) == [f];
    var os := DownloadOutcomes(m, [f], download);
    assert os == [Done(local)];
    assert os[..0] == [];
    assert DoneValues(os) == [local];
    assert FirstFatal(os) == 1;
  }

  /**
   * The evidently intended pool, with `running` workers in flight and
   * `pending` still to launch: when the pool is full, wait for one signal
   * before the next launch; after the last launch, wait for every worker
   * still running. Yields the number of signals received.
   */
  function PoolReceives(pending: nat, running: nat, width: nat): (r: nat)
    requires 1 <= width && running <= width
    ensures r == pending + running
    decreases pending
  {
    if pending == 0 then running
    else if running == width then 1 + PoolReceives(pending - 1, running, width)
    else PoolReceives(pending - 1, running + 1, width)
  }

  /** The intended pool over n workers; a width below one is taken as one. */
  function ReceivesCorrected(n: nat, width: int): nat
  {
    PoolReceives(n, 0, if width < 1 then 1 else width)
  }

  /**
   * The intended DownloadAll returns: no worker fails and every signal sent
   * is received. Every wait happens with at least one worker in flight.
   */
  predicate ReturnsCorrected<T>(os: seq<Outcome<T>>, width: int)
  {
    && FirstFatal(os) == |os|
    && SignalsSent(os) == ReceivesCorrected(|os|, width)
  }

  /** With the intended pool, a run returns exactly when no worker fails, whatever the width. */
  lemma CorrectedReturnsIffNoFailure<T>(os: seq<Outcome<T>>, width: int)
    ensures ReturnsCorrected(os, width) <==> FirstFatal(os) == |os|
  {
  }

  /**
   * The model's DownloadAll is the intended pool: once the mode check and the
   * query pass, it succeeds exactly when the intended pool returns.
   */
  lemma DownloadAllIsCorrectedPool(m: Migrate, db: map<string, seq<File>>,
                                   download: string -> Result<string, Fault>, width: int)
    requires CheckMode(m, DownloadOnly).None? && CandidateQuery(m).Ok?
    ensures DownloadAll(m, db, download).Ok?
        <==> ReturnsCorrected(DownloadOutcomes(m, Candidates(CandidateQuery(m).value, db), download), width)
  {
  }
}

=== FILE: wrappers.dfy ===
/** Option and Result values for the migrator's optional fields and error returns. */
module Wrappers {

  /** A value that may be absent: an unbound store, an unset offset, no fault. */
  datatype Option<+T> = None | Some(value: T)

  /** Either a value or the error that replaced it, as Go's `(T, error)` pairs. */
  datatype Result<+T, +E> = Ok(value: T) | Err(error: E)
}
